=== FILE: README.md ===
# Foodgram core, modelled in Dafny

Foodgram is a recipe-sharing backend. Users publish recipes, follow other authors, keep
favourites and a shopping cart, and download a shopping list that sums the ingredients of every
recipe in their cart. This project models the part of the backend that has logic of its own:

- **Database state** (`models.dfy`, module `Models`). The tables form one immutable `Db` value:
  - users, recipes and ingredients are maps keyed by primary key;
  - profiles are keyed by their one-to-one user column;
  - the link tables (subscriptions, recipe ingredients, cart items, favourites) are sequences of rows, so duplicate rows can be represented.

  The module also holds:
  - the amount bounds 1..32000 and their validator;
  - the post-save hook that creates a profile;
  - the cascading deletes.

  Validity has two parts. `SchemaValid` covers the foreign keys the database enforces, plus the amount bounds. The bounds are an assumption: the validators run only through a serializer or `full_clean`, and the recipe-writing paths are not modelled. `AppInvariant` is what only the handlers maintain: no duplicate subscription, favourite or cart item, no self-subscription, a profile for every user. Recipe-ingredient rows may repeat, because no modelled handler writes them.
- **Request handlers** (`views.dfy`, module `Views`):
  - follow and unfollow;
  - add and remove a recipe in the favourites or the cart;
  - the shopping-list download.

  Each handler is a pure function from the state to a status and a new state.
- **Shopping list** (`shopping_list.dfy`, module `ShoppingList`):
  - the join of the cart with its recipes' ingredient rows;
  - the group-by-(name, unit) sum;
  - the `"{name} ({unit}) - {amount}"` lines joined by newlines.
- **Recipe filters** (`filters.dfy`, module `Filters`): `param_equals`, `param_get_id` and the filter backend. Each active filter narrows the query set in turn.
- **Permissions** (`permissions.dfy`, module `Permissions`): the author-or-admin predicates and the `me` endpoint check.
- **Default orderings** (`orderings.dfy`, module `Orderings`): users by id, ingredients by name, recipes newest first.
- **Registration** (`registration.dfy`, module `Registration`): the sign-up serializer's create step, as written and corrected (see Findings).
- **Support modules:**
  - `Seqs` holds query-set filtering, distinctness and subsequences.
  - `Text` holds `join`/`split`, `str(int)` and `int(str)`.
  - `Wrappers` holds `Option` and `Result`.

Each stateful operation, the shopping-list aggregation and the filter backend has a partner: a reference definition, an inverse, or an invariant it keeps. A lemma connects the two. Examples:
- add then remove restores the database;
- any run of toggle requests keeps the database valid;
- each shopping-list line's amount equals a table-level sum;
- the filter backend equals one filter by the conjunction of its conditions;
- `int(str(n)) == n`;
- splitting the rendered list gives back its lines.

## Model

| member | source | states |
|---|---|---|
| Views.Subscribe | backend/foodgram/views.py:34-46 | An unknown target gives 404 before any other check. Following oneself or a user already followed gives 400 with the state unchanged. Otherwise the result is 201 and exactly one `(actor, target)` row is added, with nothing else in the database changed. |
| Views.Unsubscribe | backend/foodgram/views.py:48-54 | An unknown target gives 404. An absent pair gives 400 with the state unchanged. Otherwise the result is 204, every `(actor, target)` row is gone, and every other subscription row keeps its count. |
| Views.AddRecipe | backend/foodgram/views.py:86-96 | An unknown recipe gives 404, and an existing `(actor, recipe)` mark gives 400; both leave the state unchanged. Otherwise the result is 201 with the minified recipe, exactly one mark is added to the chosen list, and the other list is untouched. |
| Views.RemoveRecipe | backend/foodgram/views.py:98-106 | An unknown recipe gives 404. An absent mark gives 400 with the state unchanged. Otherwise the result is 204, the mark is gone from the chosen list, other marks keep their counts, and the other list is untouched. |
| Views.SubscribeThenUnsubscribe | backend/foodgram/views.py:34-54 | A successful follow followed by an unfollow answers 204 and restores the original database exactly. |
| Views.AddThenRemove | backend/foodgram/views.py:86-106 | A successful add followed by a remove of the same recipe answers 204 and restores the original database exactly. |
| Views.UnsubscribeSelfRejected | backend/foodgram/views.py:48-54 | In a valid state, unfollowing oneself always answers 400, because no self row can exist. |
| Views.SubscribeKeepsValid | backend/foodgram/views.py:37-43 | The follow guards keep subscriptions duplicate-free and free of self links, so a valid database stays valid. |
| Views.UnsubscribeKeepsValid | backend/foodgram/views.py:48-54 | Unfollowing keeps a valid database valid. |
| Views.AddRecipeKeepsValid | backend/foodgram/views.py:88-93 | The existence check before insert keeps favourites and cart items duplicate-free and valid. |
| Views.RemoveRecipeKeepsValid | backend/foodgram/views.py:98-106 | Removing a mark keeps a valid database valid. |
| Views.Apply | backend/foodgram/views.py:82-116 | No toggle request changes the users or the recipes. |
| Views.Run | backend/foodgram/views.py:82-116 | A run of toggle requests never changes the users. |
| Views.RunKeepsValid | backend/foodgram/views.py:34-106 | Starting from a valid database, any sequence of follow, unfollow, add and remove requests by existing users leaves it valid. In particular, no subscription, favourite or cart item is ever stored twice. |
| Views.DownloadShoppingCart | backend/foodgram/views.py:119-140 | The download is `text/plain` with the `Shopping list.txt` attachment header. A user with nothing in the cart gets an empty body. |
| Views.DownloadShoppingListLines | backend/foodgram/views.py:119-140 | When no ingredient name or unit contains a newline, the downloaded body is the rendered aggregate of the actor's cart. It has exactly one newline-separated line per group, each line is that group's formatted line, and each amount is the group's total over the actor's cart. |
| Views.DownloadSumsSharedIngredient | backend/foodgram/tests/test_shopping_carts.py:72-76 | The test's cart holds three rows. Two of user 2's cart recipes each use one unit of `абрикосовое варенье (г)`, which gives the single line `абрикосовое варенье (г) - 2`. The one unit per recipe is assumed, because `create_recipe` is not defined in tests/utils.py. |
| ShoppingList.IngredientRows | backend/foodgram/views.py:122-127 | Every row produced comes from an ingredient row of that recipe, carrying the ingredient's name, unit and amount. Every such ingredient row produces a row. |
| ShoppingList.CartRows | backend/foodgram/views.py:122-127 | Every row produced comes from a recipe in the user's cart. Every ingredient row of every recipe in the user's cart produces a row with its name, unit and amount. |
| ShoppingList.AddRow | backend/foodgram/views.py:122-131 | Adding a row adds its group to the groups, keeps one line per group, and raises exactly that group's total by the row's amount. |
| ShoppingList.Aggregate | backend/foodgram/views.py:122-131 | The lines' groups are exactly the rows' (name, unit) groups, one line each. Every group's total equals the reference sum `SumFor` over the rows. |
| ShoppingList.AggregateAmounts | backend/foodgram/views.py:122-131 | Each line's amount is the sum of its group's rows. |
| ShoppingList.AggregateCovers | backend/foodgram/views.py:122-131 | Every row's group has a line. |
| ShoppingList.AggregatePositive | backend/foodgram/views.py:122-131 | With amounts of at least 1, no line is below 1. |
| ShoppingList.SumPositive | backend/foodgram/models.py:116-121 | When every amount passed the lower bound, every group that occurs sums to at least 1. |
| ShoppingList.IngredientRowsTotal | backend/foodgram/views.py:122-131 | Summing the joined rows of one recipe gives the table-level total `RecipeTotal` of that recipe's ingredient rows. |
| ShoppingList.CartRowsTotal | backend/foodgram/views.py:122-131 | Summing the joined rows of the cart gives the table-level total `CartTotal` over the user's cart items. |
| ShoppingList.ShoppingListTotals | backend/foodgram/views.py:122-131 | The list has at most one line per ingredient group. Each line's amount is the sum of `amount` over the cart recipes' rows of that ingredient. For every group, the list's total equals the cart total, so a group with a non-zero cart total has a line. |
| ShoppingList.FormatLine | backend/foodgram/views.py:134 | The line is the name, then ` (`, the unit and `) - `, then digits that parse back to the amount. It holds no newline unless the name or unit does. |
| ShoppingList.Render | backend/foodgram/views.py:133-136 | No lines give the empty text, so an empty cart gives an empty body. |
| ShoppingList.RenderSplits | backend/foodgram/views.py:133-136 | For a non-empty list whose names and units contain no newline, splitting the text at newlines gives back exactly the formatted lines, one per group, so there is no trailing newline and no empty line. |
| Text.Join | backend/foodgram/views.py:133 | Joining nothing gives the empty string, and joining one part gives that part. |
| Text.SplitJoin | backend/foodgram/views.py:133 | Splitting the joined text at the separator gives back the parts when no part holds the separator. |
| Text.ToDecimal | backend/foodgram/views.py:134 | The decimal text is non-empty: digits, with a leading minus for negative values, and no leading zero except for `0` itself. |
| Text.ParseInt | backend/foodgram/filters.py:10-11 | The result is a number exactly when the text is an optional sign followed by digits. Empty text gives `None`, and the sign of the result follows the text. |
| Text.ParseToDecimal | backend/foodgram/filters.py:8-11 | Reading back the decimal text of any integer gives that integer. |
| Text.ParseNonCanonical | backend/foodgram/filters.py:10 | The non-canonical literals `int()` accepts read as Python reads them. A leading zero or `+` leaves the value unchanged, and `-` negates it, so `007` and `+7` give 7 and `-0` gives 0. |
| Filters.ParamValue | backend/foodgram/filters.py:9 | A missing parameter reads as the empty string. A present one reads as its value. |
| Filters.ParamEquals | backend/foodgram/filters.py:4-5 | True exactly when the parameter is present with that value, or is missing and the value is empty. |
| Filters.ParamGetId | backend/foodgram/filters.py:8-11 | A missing parameter gives `None`. A present one is read as `int()` reads it: a number comes back exactly when the value is an integer literal, and the decimal text of `n` gives `n`. |
| Filters.Narrow | backend/foodgram/filters.py:20-25 | One filter step keeps a subsequence of exactly the elements meeting the condition when active, and keeps everything when inactive. |
| Filters.FilterRecipes | backend/foodgram/filters.py:14-27 | The result is a subsequence of the input, in the same order. A recipe is kept exactly when it meets every active filter: the author id when `author` parses, and the cart or favourites of the requester when the flag is exactly `1`. With none of the parameters, the input comes back unchanged. |
| Filters.FilterRecipesIsConjunction | backend/foodgram/filters.py:14-27 | Applying the three steps in turn equals one filter by the conjunction of the active conditions. |
| Filters.NarrowIsFilter | backend/foodgram/filters.py:20-25 | A conditional step equals a filter by the condition guarded by its activation flag. |
| Seqs.Filter | backend/foodgram/filters.py:21-25 | The result keeps exactly the satisfying elements, with their multiplicities, in order, and as a subsequence. It keeps distinctness, and returns everything when all elements satisfy the condition. |
| Seqs.Without | backend/foodgram/views.py:53 | Every copy of the element is removed, and every other element keeps its count and order. An absent element leaves the sequence unchanged. |
| Seqs.WithoutAppended | backend/foodgram/views.py:104 | Removing an element that was just appended to a sequence lacking it gives back the sequence. |
| Seqs.FilterAppend | backend/foodgram/filters.py:21-25 | Filtering distributes over concatenation. |
| Models.ValidateBounded | backend/foodgram/models.py:85-90 | A value passes exactly when it lies in [1, 32000], and then it fits a positive small integer. Below 1 it fails with the minimum, and above 32000 with the maximum. |
| Models.SchemaAllowsDuplicateLinks | backend/foodgram/models.py:150-165 | A database can satisfy every schema constraint and still hold the same favourite twice, so uniqueness rests on the handlers. |
| Models.CreateProfile | backend/foodgram/models.py:15-18 | Creating a second profile for a user fails on the unique one-to-one column. Otherwise exactly that profile is added and nothing else changes. |
| Models.OnUserSaved | backend/foodgram/models.py:32-35 | A save that did not insert creates nothing. An insert creates exactly one empty profile for the new user, and nothing else in the database changes. |
| Models.SaveUser | backend/foodgram/models.py:32-35 | Saving a user keeps a valid database valid. An update leaves the profiles alone, and an insert adds exactly the new user's empty profile. Apart from the users and profiles tables, nothing changes. |
| Models.DeleteRecipe | backend/foodgram/models.py:107-157 | Deleting a recipe removes the recipe, and its ingredient rows, cart items and favourites. Every other row keeps its count, duplicates included. |
| Models.DeleteIngredient | backend/foodgram/models.py:107-110 | Deleting an ingredient removes the ingredient and the recipe rows using it. Every other row keeps its count. |
| Models.RecipesBy | backend/foodgram/models.py:75-77 | The result is exactly the recipes whose author is the user. |
| Models.DeleteUser | backend/foodgram/models.py:15-157 | Deleting a user removes their profile and their subscriptions in both directions. It also removes their recipes, with those recipes' ingredient rows, cart items and favourites, plus their own cart items and favourites. Other recipes and the ingredients stay, and every surviving link row keeps its count. |
| Models.DeleteRecipeKeepsValid | backend/foodgram/models.py:112-157 | A recipe delete keeps a valid database valid: no dangling reference is left. |
| Models.DeleteIngredientKeepsValid | backend/foodgram/models.py:108-110 | An ingredient delete keeps a valid database valid. |
| Models.DeleteUserKeepsValid | backend/foodgram/models.py:15-157 | A user delete keeps a valid database valid. |
| Models.DeleteUserKeepsReferences | backend/foodgram/models.py:15-157 | After a user delete, every remaining foreign key still names an existing row. |
| Orderings.IngredientsByName | backend/foodgram/models.py:68 | The ingredients are a permutation of the input, sorted by name ascending. |
| Orderings.UsersById | backend/foodgram/models.py:12 | The users are a permutation of the input, sorted by id ascending. |
| Orderings.RecipesNewestFirst | backend/foodgram/models.py:101 | The recipes are a permutation of the input, newest first. |
| Orderings.SortBy | backend/foodgram/models.py:101 | Sorting by a total preorder gives a sorted permutation. |
| Permissions.HasPermission | backend/foodgram/permissions.py:6-10 | Safe methods always pass. Unsafe ones pass exactly for a signed-in user, so an anonymous POST is refused. |
| Permissions.HasObjectPermission | backend/foodgram/permissions.py:12-17 | Safe methods, the author and a superuser always pass. An unsafe request by anyone else is refused, and every unsafe pass is by a signed-in user. |
| Permissions.WriteAccess | backend/foodgram/permissions.py:6-17 | An unsafe request passes both checks exactly when a signed-in user is the author or a superuser. |
| Permissions.UserViewSetHasPermission | backend/foodgram/permissions.py:20-25 | The check refuses exactly an anonymous request to the `me` path, and every other path passes. |
| Registration.InsertUser | backend/foodgram/serializers.py:52 | The insert fails exactly when the id is taken. Otherwise only the user is added. |
| Registration.RegisterAsWritten | backend/foodgram/serializers.py:51-54 | Registering an id that is taken fails. The sign-up step as written fails on every database and for every user. On a valid database the failure is an integrity error. |
| Registration.Register | backend/foodgram/serializers.py:51-54 | With the profile created by the hook alone, registration fails exactly on a taken id or profile. On a valid database with a new id, it succeeds, stays valid, and adds exactly the user and one empty profile. Any success leaves every table other than users and profiles unchanged. |

## Left out

- HTTP, routing and authentication are not modelled: URL routing, the 401 answers for anonymous requests, pagination, and the `recipes_limit` slicing. The `actor` of a handler is always a signed-in user.
- The subscribe response is modelled without its body. The enriched-user body (`is_subscribed`, avatar, the author's recipes, `recipes_count`) is serializer field rendering.
- Creating and updating a recipe's ingredient rows is not modelled. `RecipeSerializer`, which the recipe view names, is not part of this model.
- Views.DownloadShoppingCart: the literal `values()`/`Sum` query is not modelled. The model states the intended group-by-(name, unit) sum over the cart join rows.
- Views.DownloadShoppingListLines: the one-line-per-group layout is stated only for ingredient names and units without a newline, because the source does not escape one, and a newline inside a name splits its line in the file.
- The order of the shopping-list lines is not modelled, because the database decides it.
- A cart recipe without ingredient rows contributes nothing to the shopping list, instead of the NULL line an outer join could produce.
- Models.SchemaValid: the amount and cooking-time bounds are assumed, not established. The column accepts any small positive integer, and the validators run only in serializers or `full_clean`. Recipe creation and editing, which would run them, are not modelled. `ShoppingList.AggregatePositive` states its bound as a precondition on the rows for this reason.
- Filters.ParamGetId: `int()` is read as an optional sign followed by ASCII digits. Surrounding whitespace, `_` digit separators and non-ASCII digits, which Python also accepts, are not modelled.
- Filters.ParamValue: a repeated query parameter is one value (the last one).
- Filters.Listed: an anonymous requester with the cart or favourites flag set is modelled as matching no recipe. Django's handling of an anonymous user in that lookup is not modelled.
- Filters.FilterRecipes: the cart and favourites filters are modelled as membership tests. The repeated rows a SQL join gives when a link row is stored twice are not modelled. With the handlers' invariant, no favourite or cart item is stored twice.
- The recipe endpoint is guarded by `IsAuthenticatedOrReadOnly` (backend/foodgram/views.py:69), not by the author-or-admin class. The model states the predicates on their own and does not claim that endpoint enforces them.
- Images and avatars are not modelled: image upload, Base64 decoding, storage and URLs. They appear as plain strings or are absent.
- The admin UI, the migrations and the test suite are not modelled.
- Views.Minify: the `{id, name, image, cooking_time}` shape follows the documented API. `RecipeMinifiedSerializer`, which backend/foodgram/views.py:95 uses, is not defined in backend/foodgram/serializers.py, so that serializer is not part of this model.
- Concurrency is not modelled: check-then-insert races between simultaneous requests. Requests are handled one at a time.
- `date_posted` is an abstract integer timestamp, and its automatic setting on insert is not modelled.
- Orderings.IngredientsByName: names compare by code point. The database collation is not modelled.
- `str()` of the amount is modelled as decimal digits. Amounts are integers, so no float formatting arises.

## Findings

| source | as written | input that shows it | evidently intended | confidence | as-written member | corrected member |
|---|---|---|---|---|---|---|
| backend/foodgram/serializers.py:51-54 | The sign-up step saves the new user, whose post-save hook (backend/foodgram/models.py:32-35) already creates the profile, and then calls `Profile.objects.create(user=user)` again. | Any new user on any valid database. The second create hits the unique one-to-one column and raises an integrity error. | Create the profile once, through the hook only. | low, not executed: it depends on djoser's `perform_create` saving the user; djoser is a dependency, not part of this repository. If djoser's `create()` turns the integrity error into a 400 only after its atomic `perform_create` has committed the user and the hook's profile, those rows remain; the model's `Failure` carries no database, so it does not show that | Registration.RegisterAsWritten | Registration.Register |

=== FILE: filters.dfy ===
/** The recipe list's query-string filters: by author, by the requester's cart, by their favourites. */
module Filters {
  import opened Wrappers
  import opened Seqs
  import opened Models
  import opened Text

  /** The query string, one value per parameter (the last one when a parameter repeats). */
  type QueryParams = map<string, string>

  /** `query_params.get(name, '')`. */
  function ParamValue(params: QueryParams, name: string): (v: string)
    ensures name !in params ==> v == ""
    ensures name in params ==> v == params[name]
  {
    if name in params then params[name] else ""
  }

  /** Whether the parameter equals `value`; a missing parameter counts as the empty string. */
  function ParamEquals(params: QueryParams, name: string, value: string): (b: bool)
    ensures b <==> (name in params && params[name] == value) || (name !in params && value == "")
  {
    ParamValue(params, name) == value
  }

  /** The parameter read as an integer id, or `None` when it is missing or not an integer. */
  function ParamGetId(params: QueryParams, name: string): (r: Option<int>)
    ensures name !in params ==> r == None
    ensures r.Some? <==> name in params && IsIntLiteral(params[name])
    ensures name in params ==> r == ParseInt(params[name])
    ensures forall n :: name in params && params[name] == ToDecimal(n) ==> r == Some(n)
  {
    assert forall n :: ParseInt(ToDecimal(n)) == Some(n) by {
      forall n {
        ParseToDecimal(n);
      }
    }
    ParseInt(ParamValue(params, name))
  }

  /** Whether `requester` has `recipe` in the list `marks`; an anonymous requester has nothing. */
  predicate Listed(marks: seq<RecipeMark>, requester: Option<UserId>, recipe: RecipeId) {
    requester.Some? && RecipeMark(requester.value, recipe) in marks
  }

  function ByAuthor(author: UserId): Recipe -> bool {
    (r: Recipe) => r.author == author
  }

  function ListedBy(marks: seq<RecipeMark>, requester: Option<UserId>): Recipe -> bool {
    (r: Recipe) => Listed(marks, requester, r.id)
  }

  /** Reference definition: the conjunction of the active filters, as one condition on a recipe. */
  predicate Selected(db: Db, params: QueryParams, requester: Option<UserId>, r: Recipe) {
    var author := ParamGetId(params, "author");
    && (author.Some? ==> r.author == author.value)
    && (ParamEquals(params, "is_in_shopping_cart", "1") ==> Listed(db.shoppingCart, requester, r.id))
    && (ParamEquals(params, "is_favorited", "1") ==> Listed(db.favorites, requester, r.id))
  }

  /** One `if ...: queryset = queryset.filter(...)` step of the backend. */
  function Narrow(qs: seq<Recipe>, active: bool, p: Recipe -> bool): (r: seq<Recipe>)
    ensures IsSubsequence(r, qs)
    ensures forall x :: x in r <==> x in qs && (active ==> p(x))
    ensures !active ==> r == qs
  {
    SubsequenceRefl(qs);
    if active then Filter(qs, p) else qs
  }

  /** The filter backend: each active parameter narrows the query set in turn. */
  function FilterRecipes(db: Db, params: QueryParams, requester: Option<UserId>, qs: seq<Recipe>): (r: seq<Recipe>)
    ensures IsSubsequence(r, qs)
    ensures forall x :: x in r <==> x in qs && Selected(db, params, requester, x)
    ensures "author" !in params && "is_in_shopping_cart" !in params && "is_favorited" !in params ==> r == qs
  {
    var author := ParamGetId(params, "author");
    var q1 := Narrow(qs, author.Some?, ByAuthor(if author.Some? then author.value else 0));
    var q2 := Narrow(q1, ParamEquals(params, "is_in_shopping_cart", "1"), ListedBy(db.shoppingCart, requester));
    var q3 := Narrow(q2, ParamEquals(params, "is_favorited", "1"), ListedBy(db.favorites, requester));
    SubsequenceTrans(q2, q1, qs);
    SubsequenceTrans(q3, q2, qs);
    q3
  }

  /** Filters with the same verdict on every element keep the same elements. */
  lemma {:induction false} FilterExtensional<T(!new)>(s: seq<T>, p: T -> bool, q: T -> bool)
    requires forall x :: p(x) == q(x)
    ensures Filter(s, p) == Filter(s, q)
    decreases |s|
  {
    if |s| > 0 {
      FilterExtensional(s[1..], p, q);
    }
  }

  /** Filtering twice is filtering once by both conditions. */
  lemma {:induction false} FilterTwice<T(!new)>(s: seq<T>, p: T -> bool, q: T -> bool, pq: T -> bool)
    requires forall x :: pq(x) == (p(x) && q(x))
    ensures Filter(Filter(s, p), q) == Filter(s, pq)
    decreases |s|
  {
    if |s| > 0 {
      FilterTwice(s[1..], p, q, pq);
      var rest := Filter(s[1..], p);
      if p(s[0]) {
        assert ([s[0]] + rest)[1..] == rest;
      }
    }
  }

  function Selector(db: Db, params: QueryParams, requester: Option<UserId>): Recipe -> bool {
    (r: Recipe) => Selected(db, params, requester, r)
  }

  /** The backend keeps exactly the recipes that meet every active filter, in their original order. */
  lemma FilterRecipesIsConjunction(db: Db, params: QueryParams, requester: Option<UserId>, qs: seq<Recipe>)
    ensures FilterRecipes(db, params, requester, qs) == Filter(qs, Selector(db, params, requester))
  {
    var author := ParamGetId(params, "author");
    var cart := ParamEquals(params, "is_in_shopping_cart", "1");
    var fav := ParamEquals(params, "is_favorited", "1");
    var pa := ByAuthor(if author.Some? then author.value else 0);
    var pc := ListedBy(db.shoppingCart, requester);
    var pf := ListedBy(db.favorites, requester);
    var p1 := Gate(author.Some?, pa);
    var p2 := Gate(cart, pc);
    var p3 := Gate(fav, pf);
    var q1 := Narrow(qs, author.Some?, pa);
    var q2 := Narrow(q1, cart, pc);
    var q3 := Narrow(q2, fav, pf);
    NarrowIsFilter(qs, author.Some?, pa);
    NarrowIsFilter(q1, cart, pc);
    NarrowIsFilter(q2, fav, pf);
    FilterTwice(qs, p1, p2, Both(p1, p2));
    FilterTwice(qs, Both(p1, p2), p3, Both(Both(p1, p2), p3));
    FilterExtensional(qs, Both(Both(p1, p2), p3), Selector(db, params, requester));
  }

  /** The condition of one step: `p` when the step is active, anything otherwise. */
  function Gate(active: bool, p: Recipe -> bool): Recipe -> bool {
    (x: Recipe) => active ==> p(x)
  }

  function Both(p: Recipe -> bool, q: Recipe -> bool): Recipe -> bool {
    (x: Recipe) => p(x) && q(x)
  }

  lemma NarrowIsFilter(qs: seq<Recipe>, active: bool, p: Recipe -> bool)
    ensures Narrow(qs, active, p) == Filter(qs, Gate(active, p))
  {
    if active {
      FilterExtensional(qs, p, Gate(active, p));
    }
  }
}

=== FILE: models.dfy ===
/** The recipe site's tables, the constraints the schema enforces, and the cascades it performs. */
module Models {
  import opened Wrappers
  import opened Seqs

  /** Lower bound of every amount and cooking time. */
  const MinAmountValue: int := 1
  /** Upper bound of every amount and cooking time. */
  const MaxAmountValue: int := 32000
  /** The largest value a positive small-integer column can store. */
  const PositiveSmallIntegerMax: int := 32767

  type UserId = int
  type RecipeId = int
  type IngredientId = int

  datatype User = User(id: UserId, username: string, isSuperuser: bool)

  /** The per-user extension record; the one-to-one link to its user is the key of `Db.profiles`. */
  datatype Profile = Profile(avatar: Option<string>)

  /** `user` follows `subscribedTo`. */
  datatype Subscription = Subscription(user: UserId, subscribedTo: UserId)

  datatype Ingredient = Ingredient(id: IngredientId, name: string, measurementUnit: string)

  /** `datePosted` is an abstract creation timestamp: later recipes have larger values. */
  datatype Recipe = Recipe(
    id: RecipeId,
    author: UserId,
    name: string,
    image: string,
    cookingTime: int,
    text: string,
    datePosted: int)

  datatype RecipeIngredient = RecipeIngredient(ingredient: IngredientId, recipe: RecipeId, amount: int)

  /** A ShoppingCartItem or a Favorite row: both tables link a user to a recipe and nothing more. */
  datatype RecipeMark = RecipeMark(user: UserId, recipe: RecipeId)

  /**
   * The database. Tables with a primary key are maps from it; a profile is keyed by its user,
   * since the one-to-one column is unique. The link tables carry no uniqueness constraint, so
   * they are sequences of rows in which a row could occur twice.
   */
  datatype Db = Db(
    users: map<UserId, User>,
    profiles: map<UserId, Profile>,
    subscriptions: seq<Subscription>,
    ingredients: map<IngredientId, Ingredient>,
    recipes: map<RecipeId, Recipe>,
    recipeIngredients: seq<RecipeIngredient>,
    shoppingCart: seq<RecipeMark>,
    favorites: seq<RecipeMark>)

  /** The database with no rows. */
  function EmptyDb(): Db {
    Db(map[], map[], [], map[], map[], [], [], [])
  }

  predicate InBounds(v: int) {
    MinAmountValue <= v <= MaxAmountValue
  }

  datatype ValidationError = BelowMinimum(limit: int) | AboveMaximum(limit: int)

  /** The minimum and maximum value validators on `amount` and `cooking_time`. */
  function ValidateBounded(v: int): (r: Result<int, ValidationError>)
    ensures r.Success? <==> InBounds(v)
    ensures r.Success? ==> r.value == v && 0 < r.value <= PositiveSmallIntegerMax
    ensures v < MinAmountValue ==> r == Failure(BelowMinimum(MinAmountValue))
    ensures v > MaxAmountValue ==> r == Failure(AboveMaximum(MaxAmountValue))
  {
    if v < MinAmountValue then Failure(BelowMinimum(MinAmountValue))
    else if v > MaxAmountValue then Failure(AboveMaximum(MaxAmountValue))
    else Success(v)
  }

  /** Every foreign key names an existing row, and every primary key matches its record. */
  ghost predicate ReferencesValid(db: Db) {
    && (forall k :: k in db.users ==> db.users[k].id == k)
    && (forall k :: k in db.ingredients ==> db.ingredients[k].id == k)
    && (forall k :: k in db.recipes ==> db.recipes[k].id == k && db.recipes[k].author in db.users)
    && (forall k :: k in db.profiles ==> k in db.users)
    && (forall s :: s in db.subscriptions ==> s.user in db.users && s.subscribedTo in db.users)
    && (forall ri :: ri in db.recipeIngredients ==> ri.recipe in db.recipes && ri.ingredient in db.ingredients)
    && (forall m :: m in db.shoppingCart ==> m.user in db.users && m.recipe in db.recipes)
    && (forall m :: m in db.favorites ==> m.user in db.users && m.recipe in db.recipes)
  }

  /**
   * Every stored amount and cooking time lies within the validators' bounds. The database column
   * alone accepts any small positive integer; the validators run only when a serializer or
   * `full_clean` checks the row, so this is assumed of the recipe-writing paths, which are not
   * part of this model.
   */
  ghost predicate BoundsHold(db: Db) {
    && (forall k :: k in db.recipes ==> InBounds(db.recipes[k].cookingTime))
    && (forall ri :: ri in db.recipeIngredients ==> InBounds(ri.amount))
  }

  /** The foreign keys the database enforces, together with the assumed validator bounds. */
  ghost predicate SchemaValid(db: Db) {
    ReferencesValid(db) && BoundsHold(db)
  }

  /**
   * What only the application maintains: no link row twice, nobody following themselves,
   * and a profile for every user (created by the post-save hook).
   */
  ghost predicate AppInvariant(db: Db) {
    && Distinct(db.subscriptions)
    && Distinct(db.shoppingCart)
    && Distinct(db.favorites)
    && (forall s :: s in db.subscriptions ==> s.user != s.subscribedTo)
    && (forall k :: k in db.users ==> k in db.profiles)
  }

  ghost predicate Valid(db: Db) {
    SchemaValid(db) && AppInvariant(db)
  }

  /** The schema alone does not keep link rows unique: a favourite stored twice violates no constraint. */
  lemma SchemaAllowsDuplicateLinks()
    ensures exists db :: SchemaValid(db) && !Distinct(db.favorites)
  {
    var u := User(1, "cook", false);
    var rec := Recipe(1, 1, "soup", "soup.png", 10, "boil", 0);
    var db := EmptyDb().(
      users := map[1 := u],
      recipes := map[1 := rec],
      favorites := [RecipeMark(1, 1), RecipeMark(1, 1)]);
    assert db.favorites[0] == db.favorites[1];
    assert SchemaValid(db);
  }

  datatype DbError = IntegrityError

  /** `Profile.objects.create(user=...)`: the unique one-to-one column refuses a second profile. */
  function CreateProfile(db: Db, user: UserId): (r: Result<Db, DbError>)
    ensures r.Failure? <==> user in db.profiles
    ensures r.Success? ==> r.value.profiles == db.profiles[user := Profile(None)]
    ensures r.Success? ==> r.value.(profiles := db.profiles) == db
  {
    if user in db.profiles then Failure(IntegrityError)
    else Success(db.(profiles := db.profiles[user := Profile(None)]))
  }

  /** The post-save hook on users: a profile is created only when the save inserted the user. */
  function OnUserSaved(db: Db, user: UserId, created: bool): (r: Result<Db, DbError>)
    ensures !created ==> r == Success(db)
    ensures created && user !in db.profiles ==> r.Success? && r.value.profiles.Keys == db.profiles.Keys + {user}
    ensures created && user !in db.profiles ==>
              r.Success? && r.value.profiles == db.profiles[user := Profile(None)] && r.value.(profiles := db.profiles) == db
    ensures created && user in db.profiles ==> r.Failure?
  {
    if created then CreateProfile(db, user) else Success(db)
  }

  /** Saving a user: an insert when the id is new (then the hook runs with `created`), an update otherwise. */
  function SaveUser(db: Db, u: User): (r: Result<Db, DbError>)
    ensures Valid(db) ==> r.Success? && Valid(r.value)
    ensures r.Success? ==> r.value.users == db.users[u.id := u]
    ensures r.Success? && u.id in db.users ==> r.value.profiles == db.profiles
    ensures Valid(db) && u.id !in db.users ==> r.value.profiles.Keys == db.profiles.Keys + {u.id}
    ensures Valid(db) && u.id !in db.users ==> r.value.profiles == db.profiles[u.id := Profile(None)]
    ensures r.Success? ==> r.value.(users := db.users, profiles := db.profiles) == db
  {
    var created := u.id !in db.users;
    var saved := db.(users := db.users[u.id := u]);
    OnUserSaved(saved, u.id, created)
  }

  /** Deleting a recipe cascades to its ingredient rows, favourites and cart items, and to nothing else. */
  function DeleteRecipe(db: Db, id: RecipeId): (r: Db)
    ensures r.recipes == db.recipes - {id}
    ensures forall ri :: ri in r.recipeIngredients <==> ri in db.recipeIngredients && ri.recipe != id
    ensures forall m :: m in r.shoppingCart <==> m in db.shoppingCart && m.recipe != id
    ensures forall m :: m in r.favorites <==> m in db.favorites && m.recipe != id
    ensures forall ri :: multiset(r.recipeIngredients)[ri] == if ri.recipe != id then multiset(db.recipeIngredients)[ri] else 0
    ensures forall m :: multiset(r.shoppingCart)[m] == if m.recipe != id then multiset(db.shoppingCart)[m] else 0
    ensures forall m :: multiset(r.favorites)[m] == if m.recipe != id then multiset(db.favorites)[m] else 0
    ensures r.users == db.users && r.profiles == db.profiles && r.subscriptions == db.subscriptions
    ensures r.ingredients == db.ingredients
  {
    Db(
      db.users,
      db.profiles,
      db.subscriptions,
      db.ingredients,
      db.recipes - {id},
      Filter(db.recipeIngredients, (ri: RecipeIngredient) => ri.recipe != id),
      Filter(db.shoppingCart, (m: RecipeMark) => m.recipe != id),
      Filter(db.favorites, (m: RecipeMark) => m.recipe != id))
  }

  /** Deleting an ingredient cascades to the recipe rows that use it. */
  function DeleteIngredient(db: Db, id: IngredientId): (r: Db)
    ensures r.ingredients == db.ingredients - {id}
    ensures forall ri :: ri in r.recipeIngredients <==> ri in db.recipeIngredients && ri.ingredient != id
    ensures forall ri :: multiset(r.recipeIngredients)[ri] == if ri.ingredient != id then multiset(db.recipeIngredients)[ri] else 0
    ensures r.(ingredients := db.ingredients, recipeIngredients := db.recipeIngredients) == db
  {
    db.(
      ingredients := db.ingredients - {id},
      recipeIngredients := Filter(db.recipeIngredients, (ri: RecipeIngredient) => ri.ingredient != id))
  }

  /** The ids of the recipes `user` wrote. */
  function RecipesBy(db: Db, user: UserId): (ids: set<RecipeId>)
    ensures forall k :: k in ids <==> k in db.recipes && db.recipes[k].author == user
  {
    set k | k in db.recipes && db.recipes[k].author == user
  }

  /**
   * Deleting a user cascades to their profile, their subscriptions in both directions, their
   * favourites and cart items, and their recipes together with everything those recipes cascade to.
   */
  function DeleteUser(db: Db, user: UserId): (r: Db)
    ensures r.users == db.users - {user}
    ensures r.profiles == db.profiles - {user}
    ensures forall s :: s in r.subscriptions <==> s in db.subscriptions && s.user != user && s.subscribedTo != user
    ensures forall k :: k in r.recipes <==> k in db.recipes && db.recipes[k].author != user
    ensures forall k :: k in r.recipes ==> r.recipes[k] == db.recipes[k]
    ensures forall ri :: ri in r.recipeIngredients <==>
              ri in db.recipeIngredients && ri.recipe !in RecipesBy(db, user)
    ensures forall m :: m in r.shoppingCart <==>
              m in db.shoppingCart && m.user != user && m.recipe !in RecipesBy(db, user)
    ensures forall m :: m in r.favorites <==>
              m in db.favorites && m.user != user && m.recipe !in RecipesBy(db, user)
    ensures forall s :: multiset(r.subscriptions)[s] ==
              if s.user != user && s.subscribedTo != user then multiset(db.subscriptions)[s] else 0
    ensures forall ri :: multiset(r.recipeIngredients)[ri] ==
              if ri.recipe !in RecipesBy(db, user) then multiset(db.recipeIngredients)[ri] else 0
    ensures forall m :: multiset(r.shoppingCart)[m] ==
              if m.user != user && m.recipe !in RecipesBy(db, user) then multiset(db.shoppingCart)[m] else 0
    ensures forall m :: multiset(r.favorites)[m] ==
              if m.user != user && m.recipe !in RecipesBy(db, user) then multiset(db.favorites)[m] else 0
    ensures r.ingredients == db.ingredients
  {
    var gone := RecipesBy(db, user);
    Db(
      db.users - {user},
      db.profiles - {user},
      Filter(db.subscriptions, (s: Subscription) => s.user != user && s.subscribedTo != user),
      db.ingredients,
      db.recipes - gone,
      Filter(db.recipeIngredients, (ri: RecipeIngredient) => ri.recipe !in gone),
      Filter(db.shoppingCart, (m: RecipeMark) => m.user != user && m.recipe !in gone),
      Filter(db.favorites, (m: RecipeMark) => m.user != user && m.recipe !in gone))
  }

  lemma DeleteRecipeKeepsValid(db: Db, id: RecipeId)
    requires Valid(db)
    ensures Valid(DeleteRecipe(db, id))
  {
    var r := DeleteRecipe(db, id);
    assert ReferencesValid(r);
    assert BoundsHold(r);
    assert Distinct(r.shoppingCart) && Distinct(r.favorites);
  }

  lemma DeleteIngredientKeepsValid(db: Db, id: IngredientId)
    requires Valid(db)
    ensures Valid(DeleteIngredient(db, id))
  {
    var r := DeleteIngredient(db, id);
    assert ReferencesValid(r);
    assert BoundsHold(r);
  }

  lemma DeleteUserKeepsValid(db: Db, user: UserId)
    requires Valid(db)
    ensures Valid(DeleteUser(db, user))
  {
    var r := DeleteUser(db, user);
    DeleteUserKeepsReferences(db, user);
    assert BoundsHold(r);
    assert Distinct(r.subscriptions) && Distinct(r.shoppingCart) && Distinct(r.favorites);
  }

  lemma DeleteUserKeepsReferences(db: Db, user: UserId)
    requires ReferencesValid(db)
    ensures ReferencesValid(DeleteUser(db, user))
  {
    var r := DeleteUser(db, user);
    var gone := RecipesBy(db, user);
    forall k | k in r.recipes
      ensures r.recipes[k].id == k && r.recipes[k].author in r.users
    {
      assert db.recipes[k].author != user;
    }
    forall ri | ri in r.recipeIngredients
      ensures ri.recipe in r.recipes && ri.ingredient in r.ingredients
    {
      assert ri.recipe !in gone;
    }
    forall m | m in r.shoppingCart
      ensures m.user in r.users && m.recipe in r.recipes
    {
      assert m.recipe !in gone;
    }
    forall m | m in r.favorites
      ensures m.user in r.users && m.recipe in r.recipes
    {
      assert m.recipe !in gone;
    }
  }
}

=== FILE: orderings.dfy ===
/** The default orderings the models declare: users by id, ingredients by name, recipes newest first. */
module Orderings {
  import opened Models

  /** `le` is a total preorder: any two values compare, and comparison chains. */
  ghost predicate TotalPreorder<T(!new)>(le: (T, T) -> bool) {
    && (forall a, b :: le(a, b) || le(b, a))
    && (forall a, b, c :: le(a, b) && le(b, c) ==> le(a, c))
  }

  ghost predicate SortedBy<T>(s: seq<T>, le: (T, T) -> bool) {
    forall i, j :: 0 <= i < j < |s| ==> le(s[i], s[j])
  }

  function Insert<T(!new)>(x: T, s: seq<T>, le: (T, T) -> bool): (r: seq<T>)
    requires TotalPreorder(le)
    requires SortedBy(s, le)
    ensures SortedBy(r, le)
    ensures multiset(r) == multiset(s) + multiset{x}
    decreases |s|
  {
    if |s| == 0 then [x]
    else if le(x, s[0]) then
      var r := [x] + s;
      assert forall j :: 1 <= j < |r| ==> r[j] == s[j - 1] && le(s[0], r[j]);
      r
    else
      var rest := Insert(x, s[1..], le);
      var r := [s[0]] + rest;
      assert s == [s[0]] + s[1..];
      assert forall j :: 0 <= j < |rest| ==> le(s[0], rest[j]) by {
        forall j | 0 <= j < |rest|
          ensures le(s[0], rest[j])
        {
          assert rest[j] in multiset(rest);
          if rest[j] != x {
            assert rest[j] in multiset(s[1..]);
            var k :| 0 <= k < |s[1..]| && s[1..][k] == rest[j];
            assert s[k + 1] == rest[j];
          }
        }
      }
      assert forall i, j :: 1 <= i < j < |r| ==> r[i] == rest[i - 1] && r[j] == rest[j - 1];
      r
  }

  /** Insertion sort: a sorted permutation of `s`. */
  function SortBy<T(!new)>(s: seq<T>, le: (T, T) -> bool): (r: seq<T>)
    requires TotalPreorder(le)
    ensures SortedBy(r, le)
    ensures multiset(r) == multiset(s)
    decreases |s|
  {
    if |s| == 0 then []
    else
      assert s == [s[0]] + s[1..];
      Insert(s[0], SortBy(s[1..], le), le)
  }

  /** Code-point order on strings, shorter prefix first. */
  predicate LexLe(a: string, b: string)
    decreases |a|
  {
    if |a| == 0 then true
    else if |b| == 0 then false
    else if a[0] < b[0] then true
    else if a[0] > b[0] then false
    else LexLe(a[1..], b[1..])
  }

  lemma {:induction false} LexLeTotal(a: string, b: string)
    ensures LexLe(a, b) || LexLe(b, a)
    decreases |a|
  {
    if |a| > 0 && |b| > 0 && a[0] == b[0] {
      LexLeTotal(a[1..], b[1..]);
    }
  }

  lemma {:induction false} LexLeTrans(a: string, b: string, c: string)
    requires LexLe(a, b) && LexLe(b, c)
    ensures LexLe(a, c)
    decreases |a|
  {
    if |a| > 0 && |b| > 0 && |c| > 0 && a[0] == b[0] && b[0] == c[0] {
      LexLeTrans(a[1..], b[1..], c[1..]);
    }
  }

  function ByName(): (Ingredient, Ingredient) -> bool {
    (a: Ingredient, b: Ingredient) => LexLe(a.name, b.name)
  }

  function ById(): (User, User) -> bool {
    (a: User, b: User) => a.id <= b.id
  }

  function NewestFirst(): (Recipe, Recipe) -> bool {
    (a: Recipe, b: Recipe) => a.datePosted >= b.datePosted
  }

  /** Ingredients as listed by default: by name, ascending. */
  function IngredientsByName(s: seq<Ingredient>): (r: seq<Ingredient>)
    ensures forall i, j :: 0 <= i < j < |r| ==> LexLe(r[i].name, r[j].name)
    ensures multiset(r) == multiset(s)
  {
    assert TotalPreorder(ByName()) by {
      forall a: Ingredient, b: Ingredient
        ensures LexLe(a.name, b.name) || LexLe(b.name, a.name)
      {
        LexLeTotal(a.name, b.name);
      }
      forall a: Ingredient, b: Ingredient, c: Ingredient | LexLe(a.name, b.name) && LexLe(b.name, c.name)
        ensures LexLe(a.name, c.name)
      {
        LexLeTrans(a.name, b.name, c.name);
      }
    }
    SortBy(s, ByName())
  }

  /** Users as listed by default: by id, ascending. */
  function UsersById(s: seq<User>): (r: seq<User>)
    ensures forall i, j :: 0 <= i < j < |r| ==> r[i].id <= r[j].id
    ensures multiset(r) == multiset(s)
  {
    SortBy(s, ById())
  }

  /** Recipes as listed by default: newest first. */
  function RecipesNewestFirst(s: seq<Recipe>): (r: seq<Recipe>)
    ensures forall i, j :: 0 <= i < j < |r| ==> r[i].datePosted >= r[j].datePosted
    ensures multiset(r) == multiset(s)
  {
    SortBy(s, NewestFirst())
  }
}

=== FILE: permissions.dfy ===
/** The permission checks: read-only for everyone, writes for the author or a superuser; `me` for signed-in users. */
module Permissions {
  import opened Models

  /** Who sends the request: nobody signed in, or a user. */
  datatype Requester = Anonymous | Authenticated(id: UserId, isSuperuser: bool) {
    predicate IsAuthenticated() {
      Authenticated?
    }

    predicate IsSuperuser() {
      Authenticated? && isSuperuser
    }

    /** Whether the requester is the user `u`; an anonymous requester is nobody. */
    predicate Is(u: UserId) {
      Authenticated? && id == u
    }
  }

  /** The HTTP methods that only read. */
  const SafeMethods: set<string> := {"GET", "HEAD", "OPTIONS"}

  predicate IsSafe(verb: string) {
    verb in SafeMethods
  }

  /** The view-level check of the author-or-admin permission. */
  function HasPermission(verb: string, user: Requester): (b: bool)
    ensures IsSafe(verb) ==> b
    ensures !IsSafe(verb) ==> (b <==> user.IsAuthenticated())
    ensures user.Anonymous? && verb == "POST" ==> !b
  {
    IsSafe(verb) || user.IsAuthenticated()
  }

  /** The object-level check of the author-or-admin permission, for an object written by `author`. */
  function HasObjectPermission(verb: string, user: Requester, author: UserId): (b: bool)
    ensures IsSafe(verb) ==> b
    ensures user.IsSuperuser() ==> b
    ensures user.Is(author) ==> b
    ensures !IsSafe(verb) && !user.Is(author) && !user.IsSuperuser() ==> !b
    ensures !IsSafe(verb) && b ==> user.IsAuthenticated()
  {
    IsSafe(verb) || user.Is(author) || user.IsSuperuser()
  }

  /** Both checks together, as a request that reaches an object must pass them. */
  lemma WriteAccess(verb: string, user: Requester, author: UserId)
    requires !IsSafe(verb)
    ensures (HasPermission(verb, user) && HasObjectPermission(verb, user, author))
            <==> (user.IsAuthenticated() && (user.id == author || user.isSuperuser))
  {
  }

  /** The user list's check: the `me` endpoint needs a signed-in user, every other path is open. */
  function UserViewSetHasPermission(path: string, mePath: string, user: Requester): (b: bool)
    ensures !b <==> path == mePath && !user.IsAuthenticated()
    ensures path != mePath ==> b
  {
    path != mePath || user.IsAuthenticated()
  }
}

=== FILE: registration.dfy ===
/**
 * Registering a user through the sign-up serializer. Its create step saves the new user (which
 * fires the post-save hook that creates the profile) and then creates a profile itself.
 */
module Registration {
  import opened Wrappers
  import opened Models

  /** Inserting a new user row: an id already taken violates the primary key. */
  function InsertUser(db: Db, u: User): (r: Result<Db, DbError>)
    ensures r.Failure? <==> u.id in db.users
    ensures r.Success? ==> r.value == db.(users := db.users[u.id := u])
  {
    if u.id in db.users then Failure(IntegrityError) else Success(db.(users := db.users[u.id := u]))
  }

  /**
   * The sign-up step as written: insert the user, run the post-save hook, then create a profile
   * again. It always fails: the id is taken, a profile already exists, or the hook has already
   * created the profile and the second create hits the unique column.
   */
  function RegisterAsWritten(db: Db, u: User): (r: Result<Db, DbError>)
    ensures r.Failure?
    ensures u.id in db.users ==> r.Failure?
    ensures Valid(db) ==> r == Failure(IntegrityError)
  {
    match InsertUser(db, u)
    case Failure(e) => Failure(e)
    case Success(inserted) =>
      match OnUserSaved(inserted, u.id, true)
      case Failure(e) => Failure(e)
      case Success(saved) => CreateProfile(saved, u.id)
  }

  /** The sign-up step with the profile left to the hook alone. */
  function Register(db: Db, u: User): (r: Result<Db, DbError>)
    ensures r.Failure? <==> u.id in db.users || u.id in db.profiles
    ensures Valid(db) && u.id !in db.users ==>
              && r.Success?
              && Valid(r.value)
              && r.value.users == db.users[u.id := u]
              && r.value.profiles == db.profiles[u.id := Profile(None)]
    ensures r.Success? ==> r.value.(users := db.users, profiles := db.profiles) == db
  {
    match InsertUser(db, u)
    case Failure(e) => Failure(e)
    case Success(inserted) => OnUserSaved(inserted, u.id, true)
  }
}

=== FILE: seqs.dfy ===
/** Sequence facts shared by the tables, the query filters and the text download. */
module Seqs {

  /** No row occurs twice. */
  ghost predicate Distinct<T>(s: seq<T>) {
    forall i, j :: 0 <= i < j < |s| ==> s[i] != s[j]
  }

  /** `a` is `b` with some elements deleted, the rest kept in order. */
  predicate IsSubsequence<T(==)>(a: seq<T>, b: seq<T>)
    decreases |b|
  {
    if |a| == 0 then true
    else if |b| == 0 then false
    else (a[0] == b[0] && IsSubsequence(a[1..], b[1..])) || IsSubsequence(a, b[1..])
  }

  lemma DistinctCons<T>(x: T, t: seq<T>)
    requires x !in t
    requires Distinct(t)
    ensures Distinct([x] + t)
  {
    var s := [x] + t;
    forall i, j | 0 <= i < j < |s|
      ensures s[i] != s[j]
    {
      if i == 0 {
        assert s[j] == t[j - 1];
      } else {
        assert s[i] == t[i - 1] && s[j] == t[j - 1];
      }
    }
  }

  lemma DistinctTail<T>(s: seq<T>)
    requires |s| > 0
    requires Distinct(s)
    ensures s[0] !in s[1..]
    ensures Distinct(s[1..])
  {
    var t := s[1..];
    forall k | 0 <= k < |t|
      ensures t[k] != s[0]
    {
      assert t[k] == s[k + 1];
    }
    forall i, j | 0 <= i < j < |t|
      ensures t[i] != t[j]
    {
      assert t[i] == s[i + 1] && t[j] == s[j + 1];
    }
  }

  /** Appending an absent element keeps a sequence duplicate-free. */
  lemma DistinctAppend<T>(s: seq<T>, x: T)
    requires Distinct(s)
    requires x !in s
    ensures Distinct(s + [x])
  {
    var t := s + [x];
    forall i, j | 0 <= i < j < |t|
      ensures t[i] != t[j]
    {
      if j == |s| {
        assert t[i] == s[i];
      } else {
        assert t[i] == s[i] && t[j] == s[j];
      }
    }
  }

  lemma SubsequenceRefl<T>(s: seq<T>)
    ensures IsSubsequence(s, s)
    decreases |s|
  {
    if |s| > 0 {
      SubsequenceRefl(s[1..]);
    }
  }

  /** Deleting elements twice is deleting elements once. */
  lemma {:induction false} SubsequenceTrans<T>(a: seq<T>, b: seq<T>, c: seq<T>)
    requires IsSubsequence(a, b)
    requires IsSubsequence(b, c)
    ensures IsSubsequence(a, c)
    decreases |c|
  {
    if |a| == 0 || |c| == 0 {
    } else if |b| > 0 && b[0] == c[0] && IsSubsequence(b[1..], c[1..]) {
      if a[0] == b[0] && IsSubsequence(a[1..], b[1..]) {
        SubsequenceTrans(a[1..], b[1..], c[1..]);
      } else {
        assert IsSubsequence(a, b[1..]);
        SubsequenceTrans(a, b[1..], c[1..]);
      }
    } else {
      assert IsSubsequence(b, c[1..]);
      SubsequenceTrans(a, b, c[1..]);
    }
  }

  /** The elements of `s` that satisfy `p`, in their original order (a query-set `.filter(...)`). */
  function Filter<T(==,!new)>(s: seq<T>, p: T -> bool): (r: seq<T>)
    ensures forall x :: x in r <==> x in s && p(x)
    ensures forall x :: multiset(r)[x] == if p(x) then multiset(s)[x] else 0
    ensures IsSubsequence(r, s)
    ensures Distinct(s) ==> Distinct(r)
    ensures (forall x :: x in s ==> p(x)) ==> r == s
    decreases |s|
  {
    if |s| == 0 then []
    else
      var rest := Filter(s[1..], p);
      assert s == [s[0]] + s[1..];
      assert multiset(s) == multiset{s[0]} + multiset(s[1..]);
      if p(s[0]) then
        assert Distinct(s) ==> Distinct([s[0]] + rest) by {
          if Distinct(s) {
            DistinctTail(s);
            DistinctCons(s[0], rest);
          }
        }
        [s[0]] + rest
      else
        assert Distinct(s) ==> Distinct(rest) by {
          if Distinct(s) {
            DistinctTail(s);
          }
        }
        rest
  }

  /** Filtering distributes over concatenation. */
  lemma {:induction false} FilterAppend<T(!new)>(a: seq<T>, b: seq<T>, p: T -> bool)
    ensures Filter(a + b, p) == Filter(a, p) + Filter(b, p)
    decreases |a|
  {
    if |a| == 0 {
      assert a + b == b;
    } else {
      HeadTail(a, b);
      FilterAppend(a[1..], b, p);
      FilterCons(a[0], a[1..] + b, p);
      FilterCons(a[0], a[1..], p);
      AppendAssoc(if p(a[0]) then [a[0]] else [], Filter(a[1..], p), Filter(b, p));
    }
  }

  lemma HeadTail<T>(a: seq<T>, b: seq<T>)
    requires |a| > 0
    ensures a == [a[0]] + a[1..]
    ensures a + b == [a[0]] + (a[1..] + b)
  {
  }

  lemma AppendAssoc<T>(x: seq<T>, y: seq<T>, z: seq<T>)
    ensures x + (y + z) == (x + y) + z
  {
  }

  lemma FilterCons<T(!new)>(x: T, t: seq<T>, p: T -> bool)
    ensures Filter([x] + t, p) == (if p(x) then [x] else []) + Filter(t, p)
  {
    assert ([x] + t)[1..] == t;
  }

  /** The predicate "differs from `x`". */
  function Unequal<T(==)>(x: T): T -> bool {
    y => y != x
  }

  /** `s` with every occurrence of `x` deleted (a query-set `.delete()` on the matching rows). */
  function Without<T(==,!new)>(s: seq<T>, x: T): (r: seq<T>)
    ensures x !in r
    ensures forall y :: y != x ==> multiset(r)[y] == multiset(s)[y]
    ensures IsSubsequence(r, s)
    ensures Distinct(s) ==> Distinct(r)
    ensures x !in s ==> r == s
  {
    Filter(s, Unequal(x))
  }

  /** Removing a row that was just appended, when it was absent before, restores the rows. */
  lemma WithoutAppended<T(!new)>(s: seq<T>, x: T)
    requires x !in s
    ensures Without(s + [x], x) == s
  {
    FilterAppend(s, [x], Unequal(x));
    assert Filter([x], Unequal(x)) == [];
  }
}

=== FILE: shopping_list.dfy ===
/**
 * The downloadable shopping list: every ingredient row of every recipe in a user's cart,
 * grouped by ingredient name and unit, with the amounts summed, one text line per group.
 */
module ShoppingList {
  import opened Wrappers
  import opened Seqs
  import opened Models
  import opened Text

  /** One row of the cart join: an ingredient of a recipe in the cart, with its amount there. */
  datatype Row = Row(name: string, unit: string, amount: int)

  /** What the rows are grouped by. */
  datatype Key = Key(name: string, unit: string)

  /** One output line before formatting: a group and its total. */
  datatype Line = Line(name: string, unit: string, amount: int)

  function RowKey(row: Row): Key {
    Key(row.name, row.unit)
  }

  function LineKey(line: Line): Key {
    Key(line.name, line.unit)
  }

  function RowKeys(rows: seq<Row>): set<Key> {
    set row | row in rows :: RowKey(row)
  }

  function LineKeys(lines: seq<Line>): (keys: set<Key>)
    ensures forall i :: 0 <= i < |lines| ==> LineKey(lines[i]) in keys
    ensures forall k :: k in keys ==> exists i :: 0 <= i < |lines| && LineKey(lines[i]) == k
    decreases |lines|
  {
    if |lines| == 0 then {}
    else
      var rest := LineKeys(lines[1..]);
      assert forall i :: 1 <= i < |lines| ==> lines[i] == lines[1..][i - 1];
      assert forall i :: 0 <= i < |lines| - 1 ==> lines[1..][i] == lines[i + 1];
      {LineKey(lines[0])} + rest
  }

  /** No two lines share a group. */
  predicate DistinctKeys(lines: seq<Line>)
    decreases |lines|
  {
    |lines| == 0 || (LineKey(lines[0]) !in LineKeys(lines[1..]) && DistinctKeys(lines[1..]))
  }

  /** Reference definition: the sum of `amount` over the rows in group `k`. */
  function SumFor(rows: seq<Row>, k: Key): int
    decreases |rows|
  {
    if |rows| == 0 then 0
    else SumFor(rows[..|rows| - 1], k) + (if RowKey(rows[|rows| - 1]) == k then rows[|rows| - 1].amount else 0)
  }

  /** The sum of the amounts on the lines of group `k`. */
  function TotalOf(lines: seq<Line>, k: Key): int
    decreases |lines|
  {
    if |lines| == 0 then 0
    else (if LineKey(lines[0]) == k then lines[0].amount else 0) + TotalOf(lines[1..], k)
  }

  /** The rows of `ris` that belong to `recipe`, joined with their ingredient. */
  function IngredientRows(db: Db, ris: seq<RecipeIngredient>, recipe: RecipeId): (rows: seq<Row>)
    ensures forall row :: row in rows ==>
              exists ri :: ri in ris && ri.recipe == recipe && ri.ingredient in db.ingredients
                && row == Row(db.ingredients[ri.ingredient].name, db.ingredients[ri.ingredient].measurementUnit, ri.amount)
    ensures forall ri :: ri in ris && ri.recipe == recipe && ri.ingredient in db.ingredients ==>
              Row(db.ingredients[ri.ingredient].name, db.ingredients[ri.ingredient].measurementUnit, ri.amount) in rows
    decreases |ris|
  {
    if |ris| == 0 then []
    else
      var ri := ris[0];
      var here := if ri.recipe == recipe && ri.ingredient in db.ingredients
        then [Row(db.ingredients[ri.ingredient].name, db.ingredients[ri.ingredient].measurementUnit, ri.amount)]
        else [];
      here + IngredientRows(db, ris[1..], recipe)
  }

  /** The join of `user`'s cart items with their recipes' ingredient rows, one row per pair. */
  function CartRows(db: Db, marks: seq<RecipeMark>, user: UserId): (rows: seq<Row>)
    ensures forall row :: row in rows ==>
              exists m :: m in marks && m.user == user && row in IngredientRows(db, db.recipeIngredients, m.recipe)
    ensures forall m, ri ::
              (m in marks && m.user == user && ri in db.recipeIngredients && ri.recipe == m.recipe && ri.ingredient in db.ingredients) ==>
              Row(db.ingredients[ri.ingredient].name, db.ingredients[ri.ingredient].measurementUnit, ri.amount) in rows
    decreases |marks|
  {
    if |marks| == 0 then []
    else
      var here := if marks[0].user == user then IngredientRows(db, db.recipeIngredients, marks[0].recipe) else [];
      here + CartRows(db, marks[1..], user)
  }

  /** Adds one row to the running groups: to its group's line if there is one, as a new line otherwise. */
  function AddRow(lines: seq<Line>, row: Row): (r: seq<Line>)
    ensures LineKeys(r) == LineKeys(lines) + {RowKey(row)}
    ensures DistinctKeys(lines) ==> DistinctKeys(r)
    ensures forall k :: TotalOf(r, k) == TotalOf(lines, k) + (if k == RowKey(row) then row.amount else 0)
    decreases |lines|
  {
    if |lines| == 0 then
      var r := [Line(row.name, row.unit, row.amount)];
      assert r[1..] == [];
      r
    else if LineKey(lines[0]) == RowKey(row) then
      var r := [lines[0].(amount := lines[0].amount + row.amount)] + lines[1..];
      assert r[1..] == lines[1..];
      r
    else
      var rest := AddRow(lines[1..], row);
      var r := [lines[0]] + rest;
      assert r[1..] == rest;
      r
  }

  /** The groups of `rows` with their totals; the order of the lines is not part of the contract. */
  function Aggregate(rows: seq<Row>): (r: seq<Line>)
    ensures LineKeys(r) == RowKeys(rows)
    ensures DistinctKeys(r)
    ensures forall k :: TotalOf(r, k) == SumFor(rows, k)
    decreases |rows|
  {
    if |rows| == 0 then []
    else
      var init := rows[..|rows| - 1];
      var r := AddRow(Aggregate(init), rows[|rows| - 1]);
      assert RowKeys(rows) == RowKeys(init) + {RowKey(rows[|rows| - 1])} by {
        assert rows == init + [rows[|rows| - 1]];
      }
      r
  }

  /** With one line per group, a line's amount is its group's total. */
  lemma {:induction false} LineAmountIsTotal(lines: seq<Line>, i: int)
    requires DistinctKeys(lines)
    requires 0 <= i < |lines|
    ensures lines[i].amount == TotalOf(lines, LineKey(lines[i]))
    decreases |lines|
  {
    var k := LineKey(lines[i]);
    if i == 0 {
      TotalAbsent(lines[1..], k);
    } else {
      LineAmountIsTotal(lines[1..], i - 1);
      assert lines[1..][i - 1] == lines[i];
    }
  }

  lemma {:induction false} TotalAbsent(lines: seq<Line>, k: Key)
    requires k !in LineKeys(lines)
    ensures TotalOf(lines, k) == 0
    decreases |lines|
  {
    if |lines| > 0 {
      TotalAbsent(lines[1..], k);
    }
  }

  /** Each group's total is positive when every amount is, so no line says zero. */
  lemma {:induction false} SumPositive(rows: seq<Row>, k: Key)
    requires forall row :: row in rows ==> row.amount >= MinAmountValue
    requires k in RowKeys(rows)
    ensures SumFor(rows, k) >= MinAmountValue
    decreases |rows|
  {
    var init := rows[..|rows| - 1];
    var last := rows[|rows| - 1];
    assert rows == init + [last];
    SumNonNegative(init, k);
    if RowKey(last) != k {
      assert k in RowKeys(init);
      SumPositive(init, k);
    }
  }

  lemma {:induction false} SumNonNegative(rows: seq<Row>, k: Key)
    requires forall row :: row in rows ==> row.amount >= 0
    ensures SumFor(rows, k) >= 0
    decreases |rows|
  {
    if |rows| > 0 {
      assert rows[..|rows| - 1] + [rows[|rows| - 1]] == rows;
      SumNonNegative(rows[..|rows| - 1], k);
    }
  }

  /** Each line of the grouped list carries the sum of its group's rows. */
  lemma AggregateAmounts(rows: seq<Row>)
    ensures forall i :: 0 <= i < |Aggregate(rows)| ==>
              Aggregate(rows)[i].amount == SumFor(rows, LineKey(Aggregate(rows)[i]))
  {
    var r := Aggregate(rows);
    forall i | 0 <= i < |r|
      ensures r[i].amount == SumFor(rows, LineKey(r[i]))
    {
      LineAmountIsTotal(r, i);
    }
  }

  /** Every row's group has a line in the grouped list. */
  lemma AggregateCovers(rows: seq<Row>)
    ensures forall row :: row in rows ==> exists i :: 0 <= i < |Aggregate(rows)| && LineKey(Aggregate(rows)[i]) == RowKey(row)
  {
    forall row | row in rows
      ensures exists i :: 0 <= i < |Aggregate(rows)| && LineKey(Aggregate(rows)[i]) == RowKey(row)
    {
      RowHasLine(rows, row);
    }
  }

  lemma RowHasLine(rows: seq<Row>, row: Row)
    requires row in rows
    ensures exists i :: 0 <= i < |Aggregate(rows)| && LineKey(Aggregate(rows)[i]) == RowKey(row)
  {
    var r := Aggregate(rows);
    assert RowKey(row) in RowKeys(rows);
    assert RowKey(row) in LineKeys(r);
  }

  /** When every amount passed the lower bound, no line of the grouped list says less. */
  lemma AggregatePositive(rows: seq<Row>)
    requires forall row :: row in rows ==> row.amount >= MinAmountValue
    ensures forall i :: 0 <= i < |Aggregate(rows)| ==> Aggregate(rows)[i].amount >= MinAmountValue
  {
    var r := Aggregate(rows);
    AggregateAmounts(rows);
    forall i | 0 <= i < |r|
      ensures r[i].amount >= MinAmountValue
    {
      var k := LineKey(r[i]);
      assert k in RowKeys(rows);
      SumPositive(rows, k);
    }
  }

  lemma {:induction false} SumForAppend(a: seq<Row>, b: seq<Row>, k: Key)
    ensures SumFor(a + b, k) == SumFor(a, k) + SumFor(b, k)
    decreases |b|
  {
    if |b| > 0 {
      var ab := a + b;
      assert ab[..|ab| - 1] == a + b[..|b| - 1];
      assert ab[|ab| - 1] == b[|b| - 1];
      SumForAppend(a, b[..|b| - 1], k);
    } else {
      assert a + b == a;
    }
  }

  /** Reference definition over the tables: the amount of group `k` in the rows of `ris` for `recipe`. */
  function RecipeTotal(db: Db, ris: seq<RecipeIngredient>, recipe: RecipeId, k: Key): int
    decreases |ris|
  {
    if |ris| == 0 then 0
    else
      var ri := ris[0];
      var counted := ri.recipe == recipe && ri.ingredient in db.ingredients
        && Key(db.ingredients[ri.ingredient].name, db.ingredients[ri.ingredient].measurementUnit) == k;
      (if counted then ri.amount else 0) + RecipeTotal(db, ris[1..], recipe, k)
  }

  /** Reference definition over the tables: the amount of group `k` over `user`'s cart items. */
  function CartTotal(db: Db, marks: seq<RecipeMark>, user: UserId, k: Key): int
    decreases |marks|
  {
    if |marks| == 0 then 0
    else
      (if marks[0].user == user then RecipeTotal(db, db.recipeIngredients, marks[0].recipe, k) else 0)
      + CartTotal(db, marks[1..], user, k)
  }

  lemma {:induction false} IngredientRowsTotal(db: Db, ris: seq<RecipeIngredient>, recipe: RecipeId, k: Key)
    ensures SumFor(IngredientRows(db, ris, recipe), k) == RecipeTotal(db, ris, recipe, k)
    decreases |ris|
  {
    if |ris| > 0 {
      var ri := ris[0];
      var here := if ri.recipe == recipe && ri.ingredient in db.ingredients
        then [Row(db.ingredients[ri.ingredient].name, db.ingredients[ri.ingredient].measurementUnit, ri.amount)]
        else [];
      SumForAppend(here, IngredientRows(db, ris[1..], recipe), k);
      IngredientRowsTotal(db, ris[1..], recipe, k);
      if |here| == 1 {
        assert here[..0] == [];
      }
    }
  }

  /** Grouping the cart join row by row adds up exactly the cart recipes' amounts of each ingredient. */
  lemma {:induction false} CartRowsTotal(db: Db, marks: seq<RecipeMark>, user: UserId, k: Key)
    ensures SumFor(CartRows(db, marks, user), k) == CartTotal(db, marks, user, k)
    decreases |marks|
  {
    if |marks| > 0 {
      var here := if marks[0].user == user then IngredientRows(db, db.recipeIngredients, marks[0].recipe) else [];
      SumForAppend(here, CartRows(db, marks[1..], user), k);
      CartRowsTotal(db, marks[1..], user, k);
      if marks[0].user == user {
        IngredientRowsTotal(db, db.recipeIngredients, marks[0].recipe, k);
      }
    }
  }

  /**
   * The shopping list of `user`: one line per ingredient (name, unit) used by a recipe in their cart,
   * whose amount is the sum over the cart's recipe-ingredient rows of that ingredient.
   */
  lemma ShoppingListTotals(db: Db, user: UserId)
    ensures var lines := Aggregate(CartRows(db, db.shoppingCart, user));
      && DistinctKeys(lines)
      && (forall i :: 0 <= i < |lines| ==> lines[i].amount == CartTotal(db, db.shoppingCart, user, LineKey(lines[i])))
      && (forall k :: TotalOf(lines, k) == CartTotal(db, db.shoppingCart, user, k))
  {
    var rows := CartRows(db, db.shoppingCart, user);
    var lines := Aggregate(rows);
    AggregateAmounts(rows);
    forall k
      ensures SumFor(rows, k) == CartTotal(db, db.shoppingCart, user, k)
    {
      CartRowsTotal(db, db.shoppingCart, user, k);
    }
  }

  /** `f"{name} ({unit}) - {amount}"`. */
  function FormatLine(line: Line): (s: string)
    ensures |s| == |line.name| + |line.unit| + 6 + |ToDecimal(line.amount)|
    ensures s[..|line.name|] == line.name
    ensures s[|line.name|..|line.name| + |line.unit| + 6] == " (" + line.unit + ") - "
    ensures ParseInt(s[|s| - |ToDecimal(line.amount)|..]) == Some(line.amount)
    ensures '\n' !in line.name && '\n' !in line.unit ==> '\n' !in s
  {
    var digits := ToDecimal(line.amount);
    LineLayout(line.name, line.unit, digits);
    ParseToDecimal(line.amount);
    assert '\n' !in digits by {
      assert forall i :: 0 <= i < |digits| ==> digits[i] == '-' || IsDigit(digits[i]);
    }
    line.name + " (" + line.unit + ") - " + digits
  }

  /** Where the three parts of a formatted line sit. */
  lemma LineLayout(name: string, unit: string, digits: string)
    ensures var s := name + " (" + unit + ") - " + digits;
      && |s| == |name| + |unit| + 6 + |digits|
      && s[..|name|] == name
      && s[|name|..|name| + |unit| + 6] == " (" + unit + ") - "
      && s[|s| - |digits|..] == digits
      && ('\n' !in name && '\n' !in unit && '\n' !in digits ==> '\n' !in s)
  {
    var s := name + " (" + unit + ") - " + digits;
    assert s == name + (" (" + unit + ") - ") + digits;
  }

  /** The file body: the formatted lines joined by newlines, with no trailing newline. */
  function Render(lines: seq<Line>): (text: string)
    ensures |lines| == 0 ==> text == ""
  {
    Join(seq(|lines|, i requires 0 <= i < |lines| => FormatLine(lines[i])), '\n')
  }

  /** Splitting the file at newlines gives one formatted line per group, when names and units hold no newline. */
  lemma RenderSplits(lines: seq<Line>)
    requires |lines| > 0
    requires forall i :: 0 <= i < |lines| ==> '\n' !in lines[i].name && '\n' !in lines[i].unit
    ensures |Split(Render(lines), '\n')| == |lines|
    ensures forall i :: 0 <= i < |lines| ==> Split(Render(lines), '\n')[i] == FormatLine(lines[i])
  {
    var parts := seq(|lines|, i requires 0 <= i < |lines| => FormatLine(lines[i]));
    assert forall i :: 0 <= i < |parts| ==> '\n' !in parts[i];
    SplitJoin(parts, '\n');
  }

  /** A newline-free ingredient table gives newline-free groups in every row of a cart. */
  lemma CartRowsNoNewline(db: Db, user: UserId)
    requires forall k :: k in db.ingredients ==>
               '\n' !in db.ingredients[k].name && '\n' !in db.ingredients[k].measurementUnit
    ensures forall row :: row in CartRows(db, db.shoppingCart, user) ==> '\n' !in row.name && '\n' !in row.unit
  {
    forall row | row in CartRows(db, db.shoppingCart, user)
      ensures '\n' !in row.name && '\n' !in row.unit
    {
      var m :| m in db.shoppingCart && m.user == user && row in IngredientRows(db, db.recipeIngredients, m.recipe);
      var ri :| ri in db.recipeIngredients && ri.recipe == m.recipe && ri.ingredient in db.ingredients
        && row == Row(db.ingredients[ri.ingredient].name, db.ingredients[ri.ingredient].measurementUnit, ri.amount);
    }
  }

  /** Every line of an aggregate carries the group of one of its rows. */
  lemma LineFromRow(rows: seq<Row>, i: int)
    requires 0 <= i < |Aggregate(rows)|
    ensures exists row :: row in rows && RowKey(row) == LineKey(Aggregate(rows)[i])
  {
    var k := LineKey(Aggregate(rows)[i]);
    assert k in LineKeys(Aggregate(rows));
    assert k in RowKeys(rows);
  }

  /** The text of the shopping list of `user`. */
  function ShoppingListText(db: Db, user: UserId): string {
    Render(Aggregate(CartRows(db, db.shoppingCart, user)))
  }
}

=== FILE: text.dfy ===
/** The Python string operations the handlers rely on: `sep.join(parts)`, `str(n)` and `int(s)`. */
module Text {
  import opened Wrappers

  /** `[sep].join(parts)`: the parts with one separator between neighbours and none at the end. */
  function Join(parts: seq<string>, sep: char): (r: string)
    ensures |parts| == 0 ==> r == ""
    ensures |parts| == 1 ==> r == parts[0]
    decreases |parts|
  {
    if |parts| == 0 then ""
    else if |parts| == 1 then parts[0]
    else parts[0] + [sep] + Join(parts[1..], sep)
  }

  /** `s.split(sep)`: the maximal separator-free pieces, always at least one. */
  function Split(s: string, sep: char): (r: seq<string>)
    ensures |r| >= 1
    ensures forall i :: 0 <= i < |r| ==> sep !in r[i]
    decreases |s|
  {
    if |s| == 0 then [""]
    else if s[0] == sep then [""] + Split(s[1..], sep)
    else
      var t := Split(s[1..], sep);
      [[s[0]] + t[0]] + t[1..]
  }

  lemma {:induction false} SplitNoSeparator(p: string, sep: char)
    requires sep !in p
    ensures Split(p, sep) == [p]
    decreases |p|
  {
    if |p| > 0 {
      SplitNoSeparator(p[1..], sep);
      assert [p[0]] + p[1..] == p;
    }
  }

  lemma {:induction false} SplitAtFirst(p: string, sep: char, tail: string)
    requires sep !in p
    ensures Split(p + [sep] + tail, sep) == [p] + Split(tail, sep)
    decreases |p|
  {
    var s := p + [sep] + tail;
    if |p| == 0 {
      assert s[1..] == tail;
    } else {
      assert s[1..] == p[1..] + [sep] + tail;
      SplitAtFirst(p[1..], sep, tail);
      assert [p[0]] + p[1..] == p;
    }
  }

  /** Splitting a joined text at the separator gives back the parts, when no part holds the separator. */
  lemma {:induction false} SplitJoin(parts: seq<string>, sep: char)
    requires |parts| > 0
    requires forall i :: 0 <= i < |parts| ==> sep !in parts[i]
    ensures Split(Join(parts, sep), sep) == parts
    decreases |parts|
  {
    if |parts| == 1 {
      SplitNoSeparator(parts[0], sep);
    } else {
      SplitJoin(parts[1..], sep);
      SplitAtFirst(parts[0], sep, Join(parts[1..], sep));
      assert [parts[0]] + parts[1..] == parts;
    }
  }

  predicate IsDigit(c: char) {
    '0' <= c <= '9'
  }

  /** One or more ASCII decimal digits. */
  predicate IsDigits(s: string) {
    |s| > 0 && forall i :: 0 <= i < |s| ==> IsDigit(s[i])
  }

  function DigitChar(d: nat): (c: char)
    requires d < 10
    ensures IsDigit(c) && (c as int) - ('0' as int) == d
  {
    ('0' as int + d) as char
  }

  /** The value of a run of decimal digits, most significant first. */
  function DigitsValue(s: string): (v: nat)
    requires forall i :: 0 <= i < |s| ==> IsDigit(s[i])
    decreases |s|
  {
    if |s| == 0 then 0
    else
      assert IsDigit(s[|s| - 1]);
      DigitsValue(s[..|s| - 1]) * 10 + ((s[|s| - 1] as int) - ('0' as int))
  }

  /** `str(n)` for a natural number: its decimal digits without leading zeros. */
  function NatDigits(n: nat): (s: string)
    ensures IsDigits(s)
    ensures s[0] == '0' ==> n == 0
    ensures n == 0 ==> s == "0"
    decreases n
  {
    if n < 10 then [DigitChar(n)]
    else NatDigits(n / 10) + [DigitChar(n % 10)]
  }

  /** `str(n)` for an integer: a minus sign for negative values, then the digits. */
  function ToDecimal(n: int): (s: string)
    ensures |s| > 0
    ensures n >= 0 ==> IsDigits(s)
    ensures n < 0 ==> s[0] == '-' && IsDigits(s[1..])
    ensures n >= 0 ==> s == "0" || s[0] != '0'
    ensures n < 0 ==> s[1] != '0'
  {
    if n < 0 then "-" + NatDigits(-n) else NatDigits(n)
  }

  /** The strings `int(s)` accepts in this model: an optional sign followed by ASCII digits. */
  predicate IsIntLiteral(s: string) {
    IsDigits(s) || (|s| > 0 && (s[0] == '+' || s[0] == '-') && IsDigits(s[1..]))
  }

  /** `int(s)`, with the `ValueError` it raises on anything else as `None`. */
  function ParseInt(s: string): (r: Option<int>)
    ensures r.Some? <==> IsIntLiteral(s)
    ensures |s| == 0 ==> r == None
    ensures r.Some? && IsDigits(s) ==> r.value >= 0
    ensures r.Some? && s[0] == '-' ==> r.value <= 0
  {
    if IsDigits(s) then Some(DigitsValue(s))
    else if |s| > 0 && s[0] == '-' && IsDigits(s[1..]) then
      var v: int := DigitsValue(s[1..]);
      Some(-v)
    else if |s| > 0 && s[0] == '+' && IsDigits(s[1..]) then Some(DigitsValue(s[1..]))
    else None
  }

  lemma {:induction false} NatDigitsValue(n: nat)
    ensures DigitsValue(NatDigits(n)) == n
    decreases n
  {
    var s := NatDigits(n);
    if n >= 10 {
      NatDigitsValue(n / 10);
      assert s[..|s| - 1] == NatDigits(n / 10);
    }
  }

  /** Printing an integer and reading it back gives the integer. */
  lemma ParseToDecimal(n: int)
    ensures ParseInt(ToDecimal(n)) == Some(n)
  {
    if n < 0 {
      NatDigitsValue(-n);
      assert ToDecimal(n)[1..] == NatDigits(-n);
    } else {
      NatDigitsValue(n);
    }
  }

  /** Leading zeros do not change the value of a run of digits. */
  lemma {:induction false} DigitsValueLeadingZero(d: string)
    requires forall i :: 0 <= i < |d| ==> IsDigit(d[i])
    ensures DigitsValue("0" + d) == DigitsValue(d)
    decreases |d|
  {
    if |d| > 0 {
      var z := "0" + d;
      assert z[..|z| - 1] == "0" + d[..|d| - 1];
      assert z[|z| - 1] == d[|d| - 1];
      DigitsValueLeadingZero(d[..|d| - 1]);
    }
  }

  /**
   * The non-canonical literals `int()` accepts: a leading zero or a plus sign leaves the value
   * alone, and a minus sign negates it, so `"007"` and `"+7"` read as 7 and `"-0"` as 0.
   */
  lemma ParseNonCanonical(d: string)
    requires IsDigits(d)
    ensures ParseInt("0" + d) == ParseInt(d)
    ensures ParseInt("+" + d) == ParseInt(d)
    ensures ParseInt("-" + d) == Some(-ParseInt(d).value)
  {
    DigitsValueLeadingZero(d);
    assert ("0" + d)[1..] == d;
    assert ("+" + d)[1..] == d;
    assert ("-" + d)[1..] == d;
    assert IsDigits("0" + d);
  }
}

=== FILE: views.dfy ===
/**
 * The request handlers that change or read the link tables: follow and unfollow a user, add a
 * recipe to or remove it from the favourites or the shopping cart, and download the shopping list.
 * `actor` is always the authenticated user making the request.
 */
module Views {
  import opened Wrappers
  import opened Seqs
  import opened Models
  import ShoppingList
  import Text

  /** The HTTP statuses the toggle handlers answer with. */
  datatype Status = Created201 | NoContent204 | BadRequest400 | NotFound404

  /** The reduced recipe shown after adding it to a list. */
  datatype MinifiedRecipe = MinifiedRecipe(id: RecipeId, name: string, image: string, cookingTime: int)

  function Minify(r: Recipe): MinifiedRecipe {
    MinifiedRecipe(r.id, r.name, r.image, r.cookingTime)
  }

  /** A handler's status, the recipe it shows (if any), and the database afterwards. */
  datatype Response = Response(status: Status, recipe: Option<MinifiedRecipe>, db: Db)

  /** The two per-user recipe lists that share one handler. */
  datatype RecipeList = Favorites | ShoppingCart

  function Marks(db: Db, list: RecipeList): seq<RecipeMark> {
    match list
    case Favorites => db.favorites
    case ShoppingCart => db.shoppingCart
  }

  function WithMarks(db: Db, list: RecipeList, rows: seq<RecipeMark>): (r: Db)
    ensures Marks(r, list) == rows
    ensures forall other :: other != list ==> Marks(r, other) == Marks(db, other)
    ensures r.(favorites := db.favorites, shoppingCart := db.shoppingCart) == db
  {
    match list
    case Favorites => db.(favorites := rows)
    case ShoppingCart => db.(shoppingCart := rows)
  }

  /** Whether `viewer` follows `target`: the `is_subscribed` field of a user. */
  predicate IsSubscribed(db: Db, viewer: UserId, target: UserId) {
    Subscription(viewer, target) in db.subscriptions
  }

  /** POST to a user's subscribe endpoint: unknown target first, then self or repeat, then insert. */
  function Subscribe(db: Db, actor: UserId, target: UserId): (r: Response)
    ensures r.recipe == None
    ensures r.status == NotFound404 <==> target !in db.users
    ensures r.status == BadRequest400 <==> target in db.users && (target == actor || IsSubscribed(db, actor, target))
    ensures r.status == Created201 <==> target in db.users && target != actor && !IsSubscribed(db, actor, target)
    ensures r.status != Created201 ==> r.db == db
    ensures r.status == Created201 ==>
              && multiset(r.db.subscriptions) == multiset(db.subscriptions) + multiset{Subscription(actor, target)}
              && r.db.(subscriptions := db.subscriptions) == db
              && IsSubscribed(r.db, actor, target)
  {
    if target !in db.users then Response(NotFound404, None, db)
    else if target == actor || IsSubscribed(db, actor, target) then Response(BadRequest400, None, db)
    else Response(Created201, None, db.(subscriptions := db.subscriptions + [Subscription(actor, target)]))
  }

  /** DELETE on a user's subscribe endpoint: unknown target first, then absent link, then delete every matching row. */
  function Unsubscribe(db: Db, actor: UserId, target: UserId): (r: Response)
    ensures r.recipe == None
    ensures r.status == NotFound404 <==> target !in db.users
    ensures r.status == BadRequest400 <==> target in db.users && !IsSubscribed(db, actor, target)
    ensures r.status == NoContent204 <==> target in db.users && IsSubscribed(db, actor, target)
    ensures r.status != NoContent204 ==> r.db == db
    ensures r.status == NoContent204 ==>
              && !IsSubscribed(r.db, actor, target)
              && (forall s :: s != Subscription(actor, target) ==>
                    multiset(r.db.subscriptions)[s] == multiset(db.subscriptions)[s])
              && r.db.(subscriptions := db.subscriptions) == db
  {
    if target !in db.users then Response(NotFound404, None, db)
    else if !IsSubscribed(db, actor, target) then Response(BadRequest400, None, db)
    else Response(NoContent204, None, db.(subscriptions := Without(db.subscriptions, Subscription(actor, target))))
  }

  /** POST to a recipe's favourite or shopping-cart endpoint. */
  function AddRecipe(db: Db, list: RecipeList, actor: UserId, recipe: RecipeId): (r: Response)
    ensures r.status == NotFound404 <==> recipe !in db.recipes
    ensures r.status == BadRequest400 <==> recipe in db.recipes && RecipeMark(actor, recipe) in Marks(db, list)
    ensures r.status == Created201 <==> recipe in db.recipes && RecipeMark(actor, recipe) !in Marks(db, list)
    ensures r.status != Created201 ==> r.db == db && r.recipe == None
    ensures r.status == Created201 ==>
              && r.recipe == Some(Minify(db.recipes[recipe]))
              && multiset(Marks(r.db, list)) == multiset(Marks(db, list)) + multiset{RecipeMark(actor, recipe)}
              && r.db == WithMarks(db, list, Marks(r.db, list))
  {
    if recipe !in db.recipes then Response(NotFound404, None, db)
    else if RecipeMark(actor, recipe) in Marks(db, list) then Response(BadRequest400, None, db)
    else
      var rows := Marks(db, list) + [RecipeMark(actor, recipe)];
      Response(Created201, Some(Minify(db.recipes[recipe])), WithMarks(db, list, rows))
  }

  /** DELETE on a recipe's favourite or shopping-cart endpoint. */
  function RemoveRecipe(db: Db, list: RecipeList, actor: UserId, recipe: RecipeId): (r: Response)
    ensures r.recipe == None
    ensures r.status == NotFound404 <==> recipe !in db.recipes
    ensures r.status == BadRequest400 <==> recipe in db.recipes && RecipeMark(actor, recipe) !in Marks(db, list)
    ensures r.status == NoContent204 <==> recipe in db.recipes && RecipeMark(actor, recipe) in Marks(db, list)
    ensures r.status != NoContent204 ==> r.db == db
    ensures r.status == NoContent204 ==>
              && RecipeMark(actor, recipe) !in Marks(r.db, list)
              && (forall m :: m != RecipeMark(actor, recipe) ==>
                    multiset(Marks(r.db, list))[m] == multiset(Marks(db, list))[m])
              && r.db == WithMarks(db, list, Marks(r.db, list))
  {
    if recipe !in db.recipes then Response(NotFound404, None, db)
    else if RecipeMark(actor, recipe) !in Marks(db, list) then Response(BadRequest400, None, db)
    else Response(NoContent204, None, WithMarks(db, list, Without(Marks(db, list), RecipeMark(actor, recipe))))
  }

  /** A successful follow undone by an unfollow restores the database exactly. */
  lemma SubscribeThenUnsubscribe(db: Db, actor: UserId, target: UserId)
    requires Subscribe(db, actor, target).status == Created201
    ensures Unsubscribe(Subscribe(db, actor, target).db, actor, target) == Response(NoContent204, None, db)
  {
    WithoutAppended(db.subscriptions, Subscription(actor, target));
  }

  /** A successful add undone by a remove restores the database exactly. */
  lemma AddThenRemove(db: Db, list: RecipeList, actor: UserId, recipe: RecipeId)
    requires AddRecipe(db, list, actor, recipe).status == Created201
    ensures RemoveRecipe(AddRecipe(db, list, actor, recipe).db, list, actor, recipe) == Response(NoContent204, None, db)
  {
    WithoutAppended(Marks(db, list), RecipeMark(actor, recipe));
  }

  /** Unfollowing oneself always fails: the guards never let a self link in. */
  lemma UnsubscribeSelfRejected(db: Db, actor: UserId)
    requires Valid(db)
    requires actor in db.users
    ensures Unsubscribe(db, actor, actor) == Response(BadRequest400, None, db)
  {
  }

  lemma SubscribeKeepsValid(db: Db, actor: UserId, target: UserId)
    requires Valid(db)
    requires actor in db.users
    ensures Valid(Subscribe(db, actor, target).db)
  {
    var r := Subscribe(db, actor, target);
    if r.status == Created201 {
      DistinctAppend(db.subscriptions, Subscription(actor, target));
    }
  }

  lemma UnsubscribeKeepsValid(db: Db, actor: UserId, target: UserId)
    requires Valid(db)
    ensures Valid(Unsubscribe(db, actor, target).db)
  {
  }

  lemma AddRecipeKeepsValid(db: Db, list: RecipeList, actor: UserId, recipe: RecipeId)
    requires Valid(db)
    requires actor in db.users
    ensures Valid(AddRecipe(db, list, actor, recipe).db)
  {
    var r := AddRecipe(db, list, actor, recipe);
    if r.status == Created201 {
      DistinctAppend(Marks(db, list), RecipeMark(actor, recipe));
    }
  }

  lemma RemoveRecipeKeepsValid(db: Db, list: RecipeList, actor: UserId, recipe: RecipeId)
    requires Valid(db)
    ensures Valid(RemoveRecipe(db, list, actor, recipe).db)
  {
  }

  /** One request to a toggle endpoint. */
  datatype Toggle =
    | Follow(actor: UserId, target: UserId)
    | Unfollow(actor: UserId, target: UserId)
    | Mark(list: RecipeList, actor: UserId, recipe: RecipeId)
    | Unmark(list: RecipeList, actor: UserId, recipe: RecipeId)

  function Apply(db: Db, t: Toggle): (r: Response)
    ensures r.db.users == db.users && r.db.recipes == db.recipes
  {
    match t
    case Follow(a, u) => Subscribe(db, a, u)
    case Unfollow(a, u) => Unsubscribe(db, a, u)
    case Mark(l, a, rec) => AddRecipe(db, l, a, rec)
    case Unmark(l, a, rec) => RemoveRecipe(db, l, a, rec)
  }

  /** The database after handling the requests one after another. */
  function Run(db: Db, ts: seq<Toggle>): (r: Db)
    ensures r.users == db.users
    decreases |ts|
  {
    if |ts| == 0 then db else Run(Apply(db, ts[0]).db, ts[1..])
  }

  /**
   * Any sequence of toggle requests by existing users keeps the database valid; in particular no
   * favourite, cart item or subscription is ever stored twice and nobody follows themselves.
   */
  lemma {:induction false} RunKeepsValid(db: Db, ts: seq<Toggle>)
    requires Valid(db)
    requires forall i :: 0 <= i < |ts| ==> ts[i].actor in db.users
    ensures Valid(Run(db, ts))
    decreases |ts|
  {
    if |ts| > 0 {
      var t := ts[0];
      match t {
        case Follow(a, u) => SubscribeKeepsValid(db, a, u);
        case Unfollow(a, u) => UnsubscribeKeepsValid(db, a, u);
        case Mark(l, a, rec) => AddRecipeKeepsValid(db, l, a, rec);
        case Unmark(l, a, rec) => RemoveRecipeKeepsValid(db, l, a, rec);
      }
      var next := Apply(db, t).db;
      assert forall i :: 0 <= i < |ts[1..]| ==> ts[1..][i] == ts[i + 1];
      RunKeepsValid(next, ts[1..]);
    }
  }

  /** The shopping-list download: a plain-text attachment. */
  datatype Download = Download(content: string, contentType: string, contentDisposition: string)

  const ShoppingListDisposition: string := "attachment; filename=\"Shopping list.txt\""

  /** GET on the shopping-list download endpoint: reads the database, changes nothing. */
  function DownloadShoppingCart(db: Db, actor: UserId): (d: Download)
    ensures d.contentType == "text/plain"
    ensures d.contentDisposition == ShoppingListDisposition
    ensures (forall m :: m in db.shoppingCart ==> m.user != actor) ==> d.content == ""
  {
    var rows := ShoppingList.CartRows(db, db.shoppingCart, actor);
    assert (forall m :: m in db.shoppingCart ==> m.user != actor) ==> rows == [] by {
      if rows != [] {
        assert rows[0] in rows;
      }
    }
    Download(ShoppingList.ShoppingListText(db, actor), "text/plain", ShoppingListDisposition)
  }

  /**
   * The downloaded file end to end: it renders the aggregate of the actor's cart, has one
   * newline-separated line per group, and each line's amount is the group's total over the cart.
   */
  lemma DownloadShoppingListLines(db: Db, actor: UserId)
    requires forall k :: k in db.ingredients ==>
               '\n' !in db.ingredients[k].name && '\n' !in db.ingredients[k].measurementUnit
    ensures var lines := ShoppingList.Aggregate(ShoppingList.CartRows(db, db.shoppingCart, actor));
      && DownloadShoppingCart(db, actor).content == ShoppingList.Render(lines)
      && (|lines| > 0 ==>
            && |Text.Split(DownloadShoppingCart(db, actor).content, '\n')| == |lines|
            && forall i :: 0 <= i < |lines| ==>
                 Text.Split(DownloadShoppingCart(db, actor).content, '\n')[i] == ShoppingList.FormatLine(lines[i]))
      && (forall i :: 0 <= i < |lines| ==>
            lines[i].amount == ShoppingList.CartTotal(db, db.shoppingCart, actor, ShoppingList.LineKey(lines[i])))
  {
    var rows := ShoppingList.CartRows(db, db.shoppingCart, actor);
    var lines := ShoppingList.Aggregate(rows);
    ShoppingList.ShoppingListTotals(db, actor);
    ShoppingList.CartRowsNoNewline(db, actor);
    forall i | 0 <= i < |lines|
      ensures '\n' !in lines[i].name && '\n' !in lines[i].unit
    {
      ShoppingList.LineFromRow(rows, i);
    }
    if |lines| > 0 {
      ShoppingList.RenderSplits(lines);
    }
  }

  /**
   * The data of the shopping-cart download test: user 2 has both of user 2's recipes in the cart.
   * `create_recipe` is not defined in tests/utils.py; one unit of the ingredient per recipe is
   * assumed, as the expected total of 2 suggests.
   */
  function TwoRecipeCart(): Db {
    EmptyDb().(
      users := map[1 := User(1, "user1", false), 2 := User(2, "user2", false)],
      ingredients := map[1 := Ingredient(1, "абрикосовое варенье", "г")],
      recipes := map[1 := Recipe(1, 2, "first", "1.png", 1, "text", 1), 2 := Recipe(2, 2, "second", "2.png", 1, "text", 2)],
      recipeIngredients := [RecipeIngredient(1, 1, 1), RecipeIngredient(1, 2, 1)],
      shoppingCart := [RecipeMark(1, 1), RecipeMark(2, 1), RecipeMark(2, 2)])
  }

  lemma TwoRecipeIngredientRows()
    ensures ShoppingList.IngredientRows(TwoRecipeCart(), TwoRecipeCart().recipeIngredients, 1)
            == [ShoppingList.Row("абрикосовое варенье", "г", 1)]
    ensures ShoppingList.IngredientRows(TwoRecipeCart(), TwoRecipeCart().recipeIngredients, 2)
            == [ShoppingList.Row("абрикосовое варенье", "г", 1)]
  {
    var db := TwoRecipeCart();
    assert ShoppingList.IngredientRows(db, db.recipeIngredients[1..], 1) == [];
    assert ShoppingList.IngredientRows(db, db.recipeIngredients[1..], 2) == [ShoppingList.Row("абрикосовое варенье", "г", 1)];
  }

  lemma TwoRecipeCartRows()
    ensures ShoppingList.CartRows(TwoRecipeCart(), TwoRecipeCart().shoppingCart, 2)
            == [ShoppingList.Row("абрикосовое варенье", "г", 1), ShoppingList.Row("абрикосовое варенье", "г", 1)]
  {
    var db := TwoRecipeCart();
    var row := ShoppingList.Row("абрикосовое варенье", "г", 1);
    TwoRecipeIngredientRows();
    assert ShoppingList.CartRows(db, db.shoppingCart[2..], 2) == [row];
    assert ShoppingList.CartRows(db, db.shoppingCart[1..], 2) == [row, row];
  }

  lemma TwoRowsAggregate()
    ensures ShoppingList.Aggregate([ShoppingList.Row("абрикосовое варенье", "г", 1), ShoppingList.Row("абрикосовое варенье", "г", 1)])
            == [ShoppingList.Line("абрикосовое варенье", "г", 2)]
  {
    var row := ShoppingList.Row("абрикосовое варенье", "г", 1);
    assert [row, row][..1] == [row];
    assert [row][..0] == [];
    assert ShoppingList.Aggregate([row]) == [ShoppingList.Line("абрикосовое варенье", "г", 1)];
  }

  lemma OneLineRendered()
    ensures ShoppingList.Render([ShoppingList.Line("абрикосовое варенье", "г", 2)]) == "абрикосовое варенье (г) - 2"
  {
    assert Text.NatDigits(2) == "2";
    assert Text.ToDecimal(2) == "2";
    assert ShoppingList.FormatLine(ShoppingList.Line("абрикосовое варенье", "г", 2)) == "абрикосовое варенье (г) - 2";
  }

  /** Two cart recipes each using one unit of the same ingredient give one line with the sum. */
  lemma DownloadSumsSharedIngredient()
    ensures DownloadShoppingCart(TwoRecipeCart(), 2).content == "абрикосовое варенье (г) - 2"
  {
    TwoRecipeCartRows();
    TwoRowsAggregate();
    OneLineRendered();
  }
}

=== FILE: wrappers.dfy ===
/** Failure-carrying wrappers used across the model. */
module Wrappers {

  /** A value that may be missing; Python's `None` is `None` here. */
  datatype Option<+T> = None | Some(value: T)

  /** The outcome of an operation that can raise. */
  datatype Result<+R, +E> = Success(value: R) | Failure(error: E)
}
